=== FILE: README.md ===
# Peer-synchronised pin store — a Dafny model

The server keeps map "pins" (`Record`s keyed by `mapid`) in two places. The
first is a bounded in-memory cache. It starts as the stored pins in id order,
as startup loads them. The handlers append pins in arrival order and evict
from the front. It holds at most `MAX_CACHE_SIZE = 10000` entries once a batch
has been merged. The second is a key-value store,
where each pin sits under `"locationpins:" + mapid`. Peers in a room exchange
two messages. A `record` message carries one pin. A `cache` message carries a
list of pins; it is sent whenever a peer joins. At startup the server first
deletes pins older than fourteen days from the `locationpins` and `localpins`
namespaces. It then fetches or creates its client identity under `"client"`
and loads the cache from the store, untrimmed.

The model is a set of pure state transitions:

- `Keys`: the store's key order (code-point lexicographic), the open range
  `(prefix + ":", prefix + ":~")` that enumerates a namespace, and the key
  layout.
- `Records`: the `Record`, `Client` and stored `Value` types, `MAX_CACHE_SIZE`,
  and `createEmptyRecord`.
- `Store`: the store as `map<string, Value>`. The ordered range scan is a
  method that sorts the keys into place. It also defines `put`, `storeRecord`,
  a run of `storeRecord`s, and the atomic batch delete.
- `Identity`: `fetchClientData` as a get-or-create on `"client"`.
- `Retention`: `deleteOldRecords` as scan, collect and batch-write. It is
  checked against a reference definition `Sweep`.
- `Cache`: the duplicate filter, the single-record step (push, then at most
  one shift) and the batch step (push, then splice down to the bound).
- `Sync`: the room handlers as one `Step(node, event)` returning the new node
  and the messages sent.
- `Startup`: `loadRecords` and the startup sequence of `main`.

Inputs the code draws from outside become parameters:
- the clock readings (`now1`, `now2`, in milliseconds);
- the ISO-date parser (`parse`, which returns `None` for an Invalid Date);
- the random UUID (`freshUsername`, `uuid`);
- SHA-256 (`hash`).

Some behaviours of the code are worth spelling out:
- `onPeerJoin` calls `sendCache(recordCache)` with no target, so the snapshot
  goes to every peer in the room: `OnPeerJoin` returns one `Send` with
  `to == None`.
- The room is joined with the literal app id `'username'`.
- The single-record handler shifts at most one entry per message. A cache
  hydrated above the bound stays above it under `record` messages
  (`Cache.OverfullCache`).
- Startup hydrates the cache with every pin left after the sweeps, untrimmed,
  so the cache can start above the bound.

## Model

| member | source | states |
|---|---|---|
| `Records.CreateEmptyRecord` | src/server.ts:25-36 | a blank pin carries the given UUID and ISO date, empty text fields and category "brainstorming" |
| `Keys.RecordKeyInjective` | src/server.ts:74-77 | two pins share a store key exactly when they share an id |
| `Keys.RecordKeyOrder` | src/server.ts:65-70 | pin keys iterate in the order of their ids |
| `Keys.RecordKeyInNamespace` | src/server.ts:65-75 | a pin written under `"locationpins:" + mapid` is visited by the namespace scan iff its id is non-empty and starts below '~'; any other pin is written but never reloaded or swept |
| `Keys.ClientKeyOutsideNamespaces` | src/server.ts:44-58 | the "client" key lies in neither pin namespace |
| `Keys.RecordKeyOutsideLocalPins` | src/server.ts:132-133 | no pin key lies in the `localpins` range |
| `Store.Scan` | src/server.ts:67-69 | the range iteration yields every stored pair whose key is strictly between the bounds, each from the store, in strictly increasing key order |
| `Store.AscendingKeyCount` | src/server.ts:67-69 | a scan yields as many entries as there are keys in range |
| `Store.StoreRecord` | src/server.ts:74-77 | after storing, the pin's key holds the pin, and every other key holds what it held |
| `Store.StoreAll` | src/server.ts:122-124 | storing a list of pins adds exactly their keys and leaves every other key as it was |
| `Store.StoreAllWritesSomeRecord` | src/server.ts:122-124 | after storing a list, each pin's key holds a pin of the list with that id |
| `Store.StoreAllWritesLast` | src/server.ts:122-124 | last write wins: a pin of the list whose id no later pin repeats is what its key holds after storing the list |
| `Store.StoreAllWritesEach` | src/server.ts:122-124 | when the list repeats no id, each pin of it is stored as is |
| `Store.BatchDelete` | src/server.ts:85-89 | the batch write removes exactly the collected keys and changes nothing else |
| `Store.StoreAllKeepsKeyedByMapid` | src/server.ts:74-75 | storing pins keeps every key of the namespace holding the pin whose own key it is |
| `Identity.FetchClientData` | src/server.ts:44-62 | an existing identity is returned unchanged and nothing is written; otherwise `{id: 1, username, appid: hash(username + "salt1234")}` is stored under "client" and returned; no other key changes |
| `Identity.IdentityStable` | src/server.ts:44-58 | a second fetch, whatever UUID it would draw, returns the first fetch's identity and writes nothing |
| `Identity.FetchKeepsPins` | server.js:32-46 | bootstrapping the identity leaves the pin namespace as it was |
| `Retention.DeleteOldRecords` | src/server.ts:80-90 | deletes exactly the keys in `(prefix:, prefix:~)` whose timestamp parses to a time before now minus 1,209,600,000 ms; every other key keeps its value; agrees with the reference `Sweep` |
| `Retention.SweepIdempotent` | src/server.ts:80-90 | a second sweep with the same cutoff deletes nothing |
| `Retention.SweepLeavesNoExpired` | src/server.ts:83-87 | a sweep only removes keys, and leaves no expired value in its namespace |
| `Retention.LocalSweepKeepsPins` | src/server.ts:132-133 | sweeping `localpins` leaves every pin key and value untouched |
| `Retention.SweepKeepsKeyedByMapid` | server.js:68-78 | a sweep keeps the pin namespace keyed by id |
| `Retention.SweepKeepsClientSlot` | src/server.ts:84 | the identity, having no timestamp, survives every sweep |
| `Retention.RetentionBoundary` | src/server.ts:81-85 | a pin with an unparseable date or one at most 14 days old is kept; a pin 15 days old is deleted |
| `Retention.FreshRecordSurvivesSweep` | server.js:13-24 | a blank pin whose date parses to its creation time survives every sweep run within 14 days of that time |
| `Cache.Fresh` | src/server.ts:119 | the filtered batch holds exactly the batch's records whose id the cache lacks |
| `Cache.FreshAppend` | src/server.ts:119 | the filter keeps the batch's order: it distributes over concatenation |
| `Cache.FreshAllNew` | src/server.ts:119 | a batch with no cached id passes the filter whole, in order |
| `Cache.KeepNewestTwice` | src/server.ts:120-121 | trimming, appending and trimming again is one trim of the whole |
| `Cache.FreshKeepsUniqueIds` | src/server.ts:119 | filtering a batch with no repeated id yields none |
| `Cache.KeepNewest` | src/server.ts:121 | the splice keeps the last min(n, 10000) entries |
| `Cache.InsertOne` | src/server.ts:110-111 | the single-record step is `old ++ [rec]` less its first entry exactly when that exceeds 10000; it ends with `rec`; length ≤ 10000 is preserved and never exceeds max(old length, 10000) |
| `Cache.MergeBatch` | src/server.ts:119-121 | the batch step leaves the last min(n, 10000) entries of `old ++ filtered`, so length ≤ 10000 afterwards whatever it was before |
| `Cache.InsertOneKeepsUniqueIds` | src/server.ts:109-111 | a new id appended to a cache with no repeated id leaves none |
| `Cache.MergeKeepsUniqueIds` | src/server.ts:119-121 | the batch step keeps ids distinct when the batch repeats none |
| `Cache.DuplicateInBatchIsKept` | src/server.ts:119-120 | a batch `[r, r]` into an empty cache yields `[r, r]`: the filter only looks at the cache before the merge |
| `Cache.InsertOneIsMergeOfOne` | src/server.ts:108-121 | up to the bound, a one-record batch does what the single-record handler does |
| `Cache.OverfullCache` | server.js:96-109 | on a cache above the bound, the single-record step keeps its length and the batch step brings it to 10000 |
| `Cache.MergeOrderIrrelevant` | src/server.ts:118-121 | two batches with no common id leave the same records whichever comes first, when nothing is trimmed |
| `Sync.OnRecord` | src/server.ts:108-115 | a cached id changes neither cache nor store; a new id gives the single-record step and writes the pin at its key, leaving other keys alone |
| `Sync.OnCache` | src/server.ts:118-126 | the cache becomes the batch step's result; the store gains exactly the keys of the filtered records; records already cached are not rewritten |
| `Sync.OnPeerJoin` | src/server.ts:98-101 | one "cache" message carrying the whole cache in cache order, sent with no target, so to every peer in the room |
| `Sync.Step` | src/server.ts:97-127 | a record message runs the record handler and a cache message runs the cache handler, neither sending anything; only a peer join sends, and it changes nothing; a peer leaving changes nothing |
| `Sync.RecordIdempotent` | src/server.ts:108-115 | delivering a record twice equals delivering it once |
| `Sync.RecordEventIdempotent` | server.js:96-103 | a second delivery of the same record event changes nothing and sends nothing |
| `Sync.OnRecordKeepsCachePersisted` | server.js:96-103 | after a record message every cached pin's key is in the store |
| `Sync.OnCacheKeepsCachePersisted` | server.js:106-114 | after a cache message every cached pin's key is in the store |
| `Sync.StepKeepsCachePersisted` | src/server.ts:107-126 | every event keeps every cached pin persisted |
| `Sync.StepKeepsConsistent` | src/server.ts:107-126 | every event keeps "no repeated id, and the store holds each cached pin under its key", as long as no cache message repeats an id |
| `Sync.StepKeepsKeyedByMapid` | src/server.ts:112-124 | handlers keep the namespace keyed by id |
| `Sync.StepKeepsClientSlot` | src/server.ts:112-124 | no handler changes what the "client" key holds, so it keeps holding an identity |
| `Sync.CacheMessageStoresLastCopy` | src/server.ts:119-124 | a batch that repeats an id the cache lacks leaves the last copy of it stored |
| `Sync.CacheMessagePersistsNewRecords` | src/server.ts:119-124 | each newly seen record of a batch with no repeated id is stored as is, even when it is trimmed straight out of the cache |
| `Sync.SnapshotReplicates` | src/server.ts:98-121 | a peer with an empty cache that merges a join snapshot ends with the newest 10000 of the sender's pins, in the sender's order. That is the sender's whole cache when it holds at most 10000, even with a repeated id; a sender hydrated above the bound at startup passes on only its last 10000 |
| `Sync.OneByOneKeepsNewest` | src/server.ts:108-115 | on a cache within the bound, records whose ids are new and distinct, delivered one by one, leave the newest 10000 of `old ++ records`, with every record stored |
| `Sync.OneByOneEqualsBatch` | src/server.ts:107-126 | under the same conditions, one-by-one delivery and one batch give the same node |
| `Sync.EvictedRecordReaccepted` | server.js:95-114 | on a full cache, the batch `[x, front]`, where `front` is the first cached pin, drops `front` as cached. Delivered one by one, `x` evicts `front` and `front` is then accepted again, so the two caches differ |
| `Sync.CacheBoundScenario` | src/server.ts:108-115 | delivering distinct records one at a time to an empty cache leaves the newest 10000 of them, in delivery order (all of them when fewer) |
| `Sync.RecordScenario` | src/server.ts:108-115 | an empty node receiving pin "a" caches `["a"]` and stores only key `locationpins:a`; receiving it again changes nothing |
| `Startup.LoadRecords` | src/server.ts:65-71 | hydration loads every pin of the namespace and nothing else, one per key, so the count is unbounded; in a namespace keyed by id, the pins are sorted by id, repeat no id and match the store |
| `Startup.Boot` | src/server.ts:130-142 | the cache is in ascending id order, which is key order. The store is the `locationpins` sweep, then the `localpins` sweep, then the identity fetch. The cache holds exactly the pins of the swept `locationpins` namespace, one per key and untrimmed, so it can exceed 10000. The cache and store are consistent, no cached pin is expired at the first clock reading, and each cached pin was in the store before startup. The identity is the stored one, or a new one that is now stored |

## Left out

- The peer transport (Trystero, WebRTC, room joining). Events are inputs and sends are outputs. Room scoping by app id is not modelled.
- `puppeteer-runner.js`, a headless-browser supervisor with no data logic.
- The storage engine. It is a map; the range scan and the batch write are modelled as described above.
- Storage errors, the `main().catch` report and console logging. The store never fails in the model.
- Identity.FetchClientData: does not model the rethrow of a store error other than "not found" (src/server.ts:60), because the store is infallible here.
- Startup.LoadRecords: requires the namespace to hold pins only. The source casts each value to `Record`, and the value type has no other shape for such a key.
- Identity.FetchClientData: requires the "client" key, when present, to hold an identity. The source's return type claims this.
- Async interleaving. Each handler runs its cache step and then its store writes as one atomic step; two events never overlap.
- Randomness, SHA-256, `Date.now` and ISO-date parsing are parameters. `hashData` has no model of its own.
- A very large batch could make `push(...newRecords)` throw, since JavaScript limits how many arguments a call may take; the model has no such limit.
- `onPeerLeave` only logs; `Step` leaves the node as it is.
- Startup.Boot: requires the "client" key, if present, to hold an identity, and every `locationpins` key to hold the pin with that id. A store written only by this program has both properties: the empty store does, `StepKeepsKeyedByMapid`, `StepKeepsClientSlot`, `SweepKeepsKeyedByMapid`, `SweepKeepsClientSlot` and `FetchKeepsPins` preserve them, and the store `Boot` leaves has them again.
- Cache.MergeOrderIrrelevant: order independence is stated for membership only, and only when nothing is trimmed. Eviction depends on arrival order.

=== FILE: cache.dfy ===
/** The in-memory record cache: a sequence of pins that starts as the stored
    pins in id order. The two message handlers append in arrival order and
    trim from the front to MAX_CACHE_SIZE. */
module Cache {
  import opened Records

  function Min(a: int, b: int): int {
    if a <= b then a else b
  }

  function Max(a: int, b: int): int {
    if a <= b then b else a
  }

  /** The incoming records whose id the cache does not hold, in their order:
      `data.filter(rec => !recordCache.some(rc => rc.mapid === rec.mapid))`.
      Ids are compared with the cache only, never with earlier records of the
      same batch. */
  function Fresh(cache: seq<Record>, batch: seq<Record>): (r: seq<Record>)
    ensures forall x :: x in r <==> x in batch && !Contains(cache, x.mapid)
    ensures |r| <= |batch|
    decreases |batch|
  {
    if |batch| == 0 then []
    else
      var rest := Fresh(cache, batch[1..]);
      assert forall x | x in batch[1..] :: x in batch;
      assert forall x | x in batch && x != batch[0] :: x in batch[1..];
      if Contains(cache, batch[0].mapid) then rest else [batch[0]] + rest
  }

  /** The filter keeps the order of the batch: it distributes over
      concatenation and keeps or drops each record on its own. */
  lemma {:induction false} FreshAppend(cache: seq<Record>, a: seq<Record>, b: seq<Record>)
    ensures Fresh(cache, a + b) == Fresh(cache, a) + Fresh(cache, b)
    decreases |a|
  {
    if |a| == 0 {
      assert a + b == b;
    } else {
      assert (a + b)[0] == a[0];
      assert (a + b)[1..] == a[1..] + b;
      FreshAppend(cache, a[1..], b);
    }
  }

  lemma FreshSingle(cache: seq<Record>, x: Record)
    ensures Fresh(cache, [x]) == if Contains(cache, x.mapid) then [] else [x]
  {
    assert [x][1..] == [];
  }

  /** A batch none of whose ids is cached passes the filter whole. */
  lemma {:induction false} FreshAllNew(cache: seq<Record>, batch: seq<Record>)
    requires forall x | x in batch :: !Contains(cache, x.mapid)
    ensures Fresh(cache, batch) == batch
    decreases |batch|
  {
    if |batch| > 0 {
      assert batch[0] in batch;
      assert forall x | x in batch[1..] :: x in batch;
      FreshAllNew(cache, batch[1..]);
      assert batch == [batch[0]] + batch[1..];
    }
  }

  /** Records with distinct ids stay distinct after filtering. */
  lemma {:induction false} FreshKeepsUniqueIds(cache: seq<Record>, batch: seq<Record>)
    requires UniqueIds(batch)
    ensures UniqueIds(Fresh(cache, batch))
    decreases |batch|
  {
    if |batch| > 0 {
      var tail := batch[1..];
      UniqueIdsSuffix(batch, 1);
      FreshKeepsUniqueIds(cache, tail);
      var rest := Fresh(cache, tail);
      if !Contains(cache, batch[0].mapid) {
        assert !Contains(rest, batch[0].mapid) by {
          forall i | 0 <= i < |rest| ensures rest[i].mapid != batch[0].mapid {
            assert rest[i] in tail;
            var m :| 0 <= m < |tail| && tail[m] == rest[i];
            assert tail[m] == batch[m + 1];
          }
        }
        forall x | x in rest ensures !Contains([batch[0]], x.mapid) {
          ContainsMember(rest, x);
          assert [batch[0]][0] == batch[0];
        }
        UniqueIdsConcat([batch[0]], rest);
      }
    }
  }

  /** `splice(0, length - n)` once the length exceeds `n`: the newest `n`. */
  function KeepNewest(s: seq<Record>, n: nat): (r: seq<Record>)
    ensures |r| == Min(|s|, n)
    ensures r == s[|s| - |r|..]
  {
    if |s| > n then s[|s| - n..] else s
  }

  /** Trimming twice, with records appended in between, is trimming once. */
  lemma KeepNewestTwice(x: seq<Record>, y: seq<Record>, n: nat)
    ensures KeepNewest(KeepNewest(x, n) + y, n) == KeepNewest(x + y, n)
  {
    var a := KeepNewest(x, n);
    var d := |x| - |a|;
    assert a + y == (x + y)[d..];
    var l := |KeepNewest(x + y, n)|;
    assert |KeepNewest(a + y, n)| == l;
    assert (x + y)[d..][|a + y| - l..] == (x + y)[|x + y| - l..];
  }

  /** The single-record handler's cache step: `push`, then one `shift` when
      the length exceeds the bound. */
  function InsertOne(cache: seq<Record>, rec: Record): (r: seq<Record>)
    ensures |r| == if |cache| + 1 > MAX_CACHE_SIZE then |cache| else |cache| + 1
    ensures r == (cache + [rec])[|cache| + 1 - |r|..]
    ensures |r| > 0 && r[|r| - 1] == rec
    ensures |r| <= Max(|cache|, MAX_CACHE_SIZE)
    ensures |cache| <= MAX_CACHE_SIZE ==> |r| <= MAX_CACHE_SIZE
  {
    var c := cache + [rec];
    if |c| > MAX_CACHE_SIZE then c[1..] else c
  }

  /** The batch handler's cache step: append the fresh records, then keep the
      newest MAX_CACHE_SIZE. */
  function MergeBatch(cache: seq<Record>, batch: seq<Record>): (r: seq<Record>)
    ensures var all := cache + Fresh(cache, batch);
      |r| == Min(|all|, MAX_CACHE_SIZE) && r == all[|all| - |r|..]
    ensures |r| <= MAX_CACHE_SIZE
  {
    KeepNewest(cache + Fresh(cache, batch), MAX_CACHE_SIZE)
  }

  /** A new id appended to a cache without repeated ids leaves none. */
  lemma InsertOneKeepsUniqueIds(cache: seq<Record>, rec: Record)
    requires UniqueIds(cache) && !Contains(cache, rec.mapid)
    ensures UniqueIds(InsertOne(cache, rec))
  {
    forall x | x in [rec] ensures !Contains(cache, x.mapid) {
      assert x == rec;
    }
    UniqueIdsConcat(cache, [rec]);
    UniqueIdsSuffix(cache + [rec], |cache| + 1 - |InsertOne(cache, rec)|);
  }

  /** The merge keeps ids distinct whenever the fresh records are distinct
      among themselves, in particular when the batch has no repeated id. */
  lemma MergeKeepsUniqueIds(cache: seq<Record>, batch: seq<Record>)
    requires UniqueIds(cache) && UniqueIds(batch)
    ensures UniqueIds(MergeBatch(cache, batch))
  {
    var newRecords := Fresh(cache, batch);
    FreshKeepsUniqueIds(cache, batch);
    UniqueIdsConcat(cache, newRecords);
    var all := cache + newRecords;
    UniqueIdsSuffix(all, |all| - |MergeBatch(cache, batch)|);
  }

  /** A batch repeating an id the cache lacks puts that id in twice: the filter
      looks only at the cache as it was before the merge. */
  lemma DuplicateInBatchIsKept(rec: Record)
    ensures MergeBatch([], [rec, rec]) == [rec, rec]
    ensures !UniqueIds(MergeBatch([], [rec, rec]))
  {
    assert !Contains([], rec.mapid);
    assert [rec, rec] == [rec] + [rec];
    FreshAppend([], [rec], [rec]);
    FreshSingle([], rec);
    assert Fresh([], [rec, rec]) == [rec, rec];
    assert ([] + [rec, rec])[1].mapid == rec.mapid;
  }

  /** Up to the bound, the batch step on one new record is the single-record
      step. */
  lemma InsertOneIsMergeOfOne(cache: seq<Record>, rec: Record)
    requires |cache| <= MAX_CACHE_SIZE && !Contains(cache, rec.mapid)
    ensures InsertOne(cache, rec) == MergeBatch(cache, [rec])
  {
    FreshSingle(cache, rec);
  }

  /** On a cache already above the bound (as hydration can leave it) the
      single-record step keeps the length as it is, while the batch step brings
      it down to the bound. */
  lemma OverfullCache(cache: seq<Record>, rec: Record)
    requires |cache| > MAX_CACHE_SIZE && !Contains(cache, rec.mapid)
    ensures |InsertOne(cache, rec)| == |cache| > MAX_CACHE_SIZE
    ensures |MergeBatch(cache, [rec])| == MAX_CACHE_SIZE
  {
    FreshSingle(cache, rec);
  }

  /** Two batches with no id in common leave the same records in the cache
      whichever arrives first, as long as nothing is trimmed. */
  lemma MergeOrderIrrelevant(cache: seq<Record>, a: seq<Record>, b: seq<Record>)
    requires forall x, y | x in a && y in b :: x.mapid != y.mapid
    requires |cache| + |a| + |b| <= MAX_CACHE_SIZE
    ensures forall x :: x in MergeBatch(MergeBatch(cache, a), b) <==> x in MergeBatch(MergeBatch(cache, b), a)
  {
    MergeMembers(cache, a, b);
    MergeMembers(cache, b, a);
  }

  lemma MergeMembers(cache: seq<Record>, a: seq<Record>, b: seq<Record>)
    requires forall x, y | x in a && y in b :: x.mapid != y.mapid
    requires |cache| + |a| + |b| <= MAX_CACHE_SIZE
    ensures forall x :: x in MergeBatch(MergeBatch(cache, a), b) <==>
      x in cache || x in Fresh(cache, a) || x in Fresh(cache, b)
  {
    var fa := Fresh(cache, a);
    var c1 := MergeBatch(cache, a);
    assert c1 == cache + fa;
    var fb := Fresh(c1, b);
    assert MergeBatch(c1, b) == c1 + fb;
    forall y ensures y in fb <==> y in Fresh(cache, b) {
      ContainsConcat(cache, fa, y.mapid);
      if y in b {
        assert !Contains(fa, y.mapid) by {
          forall i | 0 <= i < |fa| ensures fa[i].mapid != y.mapid {
            assert fa[i] in a;
          }
        }
      }
    }
  }
}

=== FILE: identity.dfy ===
/** The local client identity: read from the "client" key, or created once,
    stored and returned. The random username and the SHA-256 digest are
    passed in. */
module Identity {
  import opened Keys
  import opened Records
  import opened Store

  const SALT: string := "salt1234"

  /** The identity a fresh store gets from the random `username`. */
  function NewClient(username: string, hash: string -> string): Client {
    Client(1, username, hash(username + SALT))
  }

  /** The identity handed back and the store after the call. */
  datatype Fetched = Fetched(client: Client, db: Store)

  /** `fetchClientData`: get-or-create on key "client". `freshUsername` is the
      UUID that would be drawn when the key is absent. */
  function FetchClientData(db: Store, freshUsername: string, hash: string -> string): (r: Fetched)
    requires ClientSlotTyped(db)
    ensures CLIENT_KEY in r.db && r.db[CLIENT_KEY] == ClientValue(r.client)
    ensures r.db.Keys == db.Keys + {CLIENT_KEY}
    ensures forall k | k in db && k != CLIENT_KEY :: r.db[k] == db[k]
    ensures CLIENT_KEY in db ==> r.db == db && ClientValue(r.client) == db[CLIENT_KEY]
    ensures CLIENT_KEY !in db ==>
      r.client.id == 1 && r.client.username == freshUsername &&
      r.client.appid == hash(freshUsername + SALT)
  {
    if CLIENT_KEY in db then Fetched(db[CLIENT_KEY].client, db)
    else
      var client := NewClient(freshUsername, hash);
      Fetched(client, Put(db, CLIENT_KEY, ClientValue(client)))
  }

  /** A second call, whatever username it would draw, returns the identity the
      first call returned and writes nothing: the identity is stable across
      restarts. */
  lemma IdentityStable(db: Store, u1: string, u2: string, hash: string -> string)
    requires ClientSlotTyped(db)
    ensures var first := FetchClientData(db, u1, hash);
      ClientSlotTyped(first.db) &&
      FetchClientData(first.db, u2, hash) == first
  {
  }

  /** The identity slot lies outside the pin namespace, so bootstrapping the
      identity leaves every pin in place. */
  lemma FetchKeepsPins(db: Store, u: string, hash: string -> string)
    requires ClientSlotTyped(db)
    ensures forall k | InNamespace(k, LOCATION_PINS) ::
      (k in FetchClientData(db, u, hash).db <==> k in db)
    ensures KeyedByMapid(db) ==> KeyedByMapid(FetchClientData(db, u, hash).db)
  {
    ClientKeyOutsideNamespaces();
  }
}

=== FILE: keys.dfy ===
/** Store keys: the order the key-value store iterates them in, the open key
    ranges a namespace is enumerated by, and the key layout the server writes.

    Keys are compared character by character; a proper prefix sorts first.
    Dafny's `char` is a Unicode scalar value, so this is code-point order,
    which is the order of the keys' UTF-8 bytes that the store compares. */
module Keys {

  /** Strict lexicographic order on keys. */
  predicate Below(a: string, b: string)
    decreases |a|
  {
    if |a| == 0 then |b| > 0
    else |b| > 0 && (a[0] < b[0] || (a[0] == b[0] && Below(a[1..], b[1..])))
  }

  lemma {:induction false} BelowIrreflexive(a: string)
    ensures !Below(a, a)
    decreases |a|
  {
    if |a| > 0 {
      BelowIrreflexive(a[1..]);
    }
  }

  lemma {:induction false} BelowTransitive(a: string, b: string, c: string)
    requires Below(a, b) && Below(b, c)
    ensures Below(a, c)
    decreases |a|
  {
    if |a| > 0 && a[0] == b[0] && b[0] == c[0] {
      BelowTransitive(a[1..], b[1..], c[1..]);
    }
  }

  lemma {:induction false} BelowTotal(a: string, b: string)
    requires a != b
    ensures Below(a, b) || Below(b, a)
    decreases |a|
  {
    if |a| > 0 && |b| > 0 && a[0] == b[0] {
      assert a == [a[0]] + a[1..] && b == [b[0]] + b[1..];
      BelowTotal(a[1..], b[1..]);
    }
  }

  /** Keys sharing a prefix compare as their remainders do. */
  lemma {:induction false} BelowCommonPrefix(p: string, a: string, b: string)
    ensures Below(p + a, p + b) <==> Below(a, b)
    decreases |p|
  {
    if |p| > 0 {
      assert (p + a)[1..] == p[1..] + a;
      assert (p + b)[1..] == p[1..] + b;
      BelowCommonPrefix(p[1..], a, b);
    } else {
      assert p + a == a && p + b == b;
    }
  }

  /** The store's open range iteration: keys strictly between `lo` and `hi`. */
  predicate InRange(k: string, lo: string, hi: string) {
    Below(lo, k) && Below(k, hi)
  }

  /** Lower bound of a namespace scan: `prefix + ":"`. */
  function NamespaceLow(prefix: string): string {
    prefix + ":"
  }

  /** Upper bound of a namespace scan: `prefix + ":~"`. */
  function NamespaceHigh(prefix: string): string {
    prefix + ":~"
  }

  /** The keys one scan of namespace `prefix` visits. */
  predicate InNamespace(k: string, prefix: string) {
    InRange(k, NamespaceLow(prefix), NamespaceHigh(prefix))
  }

  const LOCATION_PINS: string := "locationpins"
  const LOCAL_PINS: string := "localpins"
  const CLIENT_KEY: string := "client"

  /** The key a pin is persisted under: `"locationpins:" + mapid`. */
  function RecordKey(mapid: string): (k: string)
    ensures |k| == |LOCATION_PINS| + 1 + |mapid|
    ensures k[..|LOCATION_PINS| + 1] == NamespaceLow(LOCATION_PINS)
    ensures k[|LOCATION_PINS| + 1..] == mapid
  {
    NamespaceLow(LOCATION_PINS) + mapid
  }

  /** Distinct pins never share a key. */
  lemma RecordKeyInjective(a: string, b: string)
    ensures RecordKey(a) == RecordKey(b) <==> a == b
  {
    if RecordKey(a) == RecordKey(b) {
      assert a == RecordKey(a)[|LOCATION_PINS| + 1..];
    }
  }

  /** Pin keys are ordered as their ids are. */
  lemma RecordKeyOrder(a: string, b: string)
    ensures Below(RecordKey(a), RecordKey(b)) <==> Below(a, b)
  {
    BelowCommonPrefix(NamespaceLow(LOCATION_PINS), a, b);
  }

  /** A persisted pin is visited by a scan of its namespace exactly when its id
      is non-empty and starts with a character below '~'. Any other id is
      written, but neither reloaded at startup nor swept by retention. */
  lemma {:induction false} RecordKeyInNamespace(mapid: string)
    ensures InNamespace(RecordKey(mapid), LOCATION_PINS) <==> |mapid| > 0 && mapid[0] < '~'
  {
    var p := NamespaceLow(LOCATION_PINS);
    assert NamespaceLow(LOCATION_PINS) == p + "";
    assert NamespaceHigh(LOCATION_PINS) == p + "~";
    BelowCommonPrefix(p, "", mapid);
    BelowCommonPrefix(p, mapid, "~");
    if |mapid| > 0 && mapid[0] == '~' {
      assert !Below(mapid[1..], "");
    }
  }

  /** The identity slot lies in neither pin namespace. */
  lemma ClientKeyOutsideNamespaces()
    ensures !InNamespace(CLIENT_KEY, LOCATION_PINS)
    ensures !InNamespace(CLIENT_KEY, LOCAL_PINS)
  {
    assert CLIENT_KEY[0] < NamespaceLow(LOCATION_PINS)[0];
    assert CLIENT_KEY[0] < NamespaceLow(LOCAL_PINS)[0];
  }

  /** Sweeping the `localpins` namespace never reaches a pin key. */
  lemma RecordKeyOutsideLocalPins(mapid: string)
    ensures !InNamespace(RecordKey(mapid), LOCAL_PINS)
  {
    var k := RecordKey(mapid);
    var hi := NamespaceHigh(LOCAL_PINS);
    assert k == "loca" + k[4..] && hi == "loca" + hi[4..];
    BelowCommonPrefix("loca", hi[4..], k[4..]);
    assert hi[4] == 'l' && k[4] == 't';
    assert Below(hi, k);
    if Below(k, hi) {
      BelowTransitive(k, hi, k);
      BelowIrreflexive(k);
    }
  }
}

=== FILE: options.dfy ===
/** The optional-value type shared by the other modules: a clock reading or a
    timestamp that may not parse, a send target that may be absent. */
module Options {

  datatype Option<+T> = None | Some(value: T)
}

=== FILE: records.dfy ===
/** The values the server handles: map pins, the local client identity, and
    what the key-value store holds. */
module Records {

  /** A map pin. Every field is text; `timestamp` is an ISO date string. */
  datatype Record = Record(
    mapid: string,
    timestamp: string,
    title: string,
    text: string,
    link: string,
    longitude: string,
    latitude: string,
    category: string)

  /** The local identity: a constant `id`, a random `username` and an `appid`
      derived from it. */
  datatype Client = Client(id: int, username: string, appid: string)

  /** A stored value: a pin under a pin key, the identity under "client". */
  datatype Value = RecordValue(rec: Record) | ClientValue(client: Client)

  /** Upper bound the handlers trim the in-memory cache to. */
  const MAX_CACHE_SIZE: nat := 10000

  const DEFAULT_CATEGORY: string := "brainstorming"

  /** A blank pin. The random UUID and the current ISO date are passed in. */
  function CreateEmptyRecord(uuid: string, isoNow: string): (r: Record)
    ensures r.mapid == uuid && r.timestamp == isoNow
    ensures r.title == r.text == r.link == r.longitude == r.latitude == ""
    ensures r.category == DEFAULT_CATEGORY
  {
    Record(uuid, isoNow, "", "", "", "", "", DEFAULT_CATEGORY)
  }

  /** Some record of `s` carries id `id`. */
  predicate Contains(s: seq<Record>, id: string) {
    exists i | 0 <= i < |s| :: s[i].mapid == id
  }

  /** No two records of `s` share an id. */
  predicate UniqueIds(s: seq<Record>) {
    forall i, j | 0 <= i < j < |s| :: s[i].mapid != s[j].mapid
  }

  /** Moving the head of `rs` onto the end of `c` keeps the concatenation. */
  lemma AppendHead(c: seq<Record>, rs: seq<Record>)
    requires |rs| > 0
    ensures (c + [rs[0]]) + rs[1..] == c + rs
  {
    assert rs == [rs[0]] + rs[1..];
  }

  lemma ContainsConcat(a: seq<Record>, b: seq<Record>, id: string)
    ensures Contains(a + b, id) <==> Contains(a, id) || Contains(b, id)
  {
    if Contains(a + b, id) {
      var i :| 0 <= i < |a + b| && (a + b)[i].mapid == id;
      if i >= |a| {
        assert b[i - |a|].mapid == id;
      }
    }
    if Contains(b, id) {
      var i :| 0 <= i < |b| && b[i].mapid == id;
      assert (a + b)[|a| + i].mapid == id;
    }
    if Contains(a, id) {
      var i :| 0 <= i < |a| && a[i].mapid == id;
      assert (a + b)[i].mapid == id;
    }
  }

  lemma ContainsMember(s: seq<Record>, r: Record)
    requires r in s
    ensures Contains(s, r.mapid)
  {
    var i :| 0 <= i < |s| && s[i] == r;
    assert s[i].mapid == r.mapid;
  }

  /** A contiguous suffix of a sequence without repeated ids has none either. */
  lemma UniqueIdsSuffix(s: seq<Record>, k: nat)
    requires UniqueIds(s) && k <= |s|
    ensures UniqueIds(s[k..])
  {
    forall i, j | 0 <= i < j < |s[k..]|
      ensures s[k..][i].mapid != s[k..][j].mapid
    {
      assert s[k..][i] == s[k + i] && s[k..][j] == s[k + j];
    }
  }

  /** Two id-distinct sequences with no id in common concatenate to one. */
  lemma UniqueIdsConcat(a: seq<Record>, b: seq<Record>)
    requires UniqueIds(a) && UniqueIds(b)
    requires forall x | x in b :: !Contains(a, x.mapid)
    ensures UniqueIds(a + b)
  {
    forall i, j | 0 <= i < j < |a + b|
      ensures (a + b)[i].mapid != (a + b)[j].mapid
    {
      if i < |a| && j >= |a| {
        assert (a + b)[j] == b[j - |a|];
        assert b[j - |a|] in b;
        assert !Contains(a, b[j - |a|].mapid);
      } else if i >= |a| {
        assert (a + b)[i] == b[i - |a|] && (a + b)[j] == b[j - |a|];
      }
    }
  }
}

=== FILE: retention.dfy ===
/** The retention sweep `deleteOldRecords(prefix)`: delete, in one batch,
    every record of a namespace whose timestamp is more than fourteen days
    before the clock reading. The clock and the ISO-date parser are passed in;
    the parser returns None where `new Date(...)` would be an Invalid Date. */
module Retention {
  import opened Options
  import opened Keys
  import opened Records
  import opened Store

  /** Fourteen days in milliseconds. */
  const RETENTION_MS: int := 14 * 24 * 60 * 60 * 1000

  function Cutoff(now: int): int {
    now - RETENTION_MS
  }

  /** `new Date(value.timestamp) < cutoff`. An unparseable date compares as
      NaN, which is never below the cutoff; a value without a timestamp (the
      identity) likewise. */
  predicate Expired(v: Value, cutoff: int, parse: string -> Option<int>) {
    v.RecordValue? && parse(v.rec.timestamp).Some? && parse(v.rec.timestamp).value < cutoff
  }

  /** A key the sweep of `prefix` deletes. */
  predicate Doomed(db: Store, k: string, prefix: string, cutoff: int, parse: string -> Option<int>)
    requires k in db
  {
    InNamespace(k, prefix) && Expired(db[k], cutoff, parse)
  }

  /** Reference definition: the store with the doomed keys removed. */
  function Sweep(db: Store, prefix: string, cutoff: int, parse: string -> Option<int>): Store {
    map k | k in db && !Doomed(db, k, prefix, cutoff, parse) :: db[k]
  }

  /** `deleteOldRecords`: scan the namespace, collect the expired keys into a
      batch, write the batch. */
  method DeleteOldRecords(db: Store, storePrefix: string, now: int, parse: string -> Option<int>)
    returns (r: Store)
    ensures forall k :: k in r <==> k in db && !Doomed(db, k, storePrefix, Cutoff(now), parse)
    ensures forall k | k in r :: r[k] == db[k]
    ensures r == Sweep(db, storePrefix, Cutoff(now), parse)
  {
    var cutoff := Cutoff(now);
    var entries := Scan(db, NamespaceLow(storePrefix), NamespaceHigh(storePrefix));
    var batch: seq<string> := [];
    var i := 0;
    while i < |entries|
      invariant 0 <= i <= |entries|
      invariant forall k :: k in batch <==>
        exists j | 0 <= j < i :: entries[j].key == k && Expired(entries[j].value, cutoff, parse)
    {
      if Expired(entries[i].value, cutoff, parse) {
        batch := batch + [entries[i].key];
      }
      i := i + 1;
    }
    forall k | k in db
      ensures k in batch <==> Doomed(db, k, storePrefix, cutoff, parse)
    {
      if Doomed(db, k, storePrefix, cutoff, parse) {
        assert k in RangeKeys(db, NamespaceLow(storePrefix), NamespaceHigh(storePrefix));
        var e :| e in entries && e.key == k;
        var j :| 0 <= j < |entries| && entries[j] == e;
      }
      if k in batch {
        var j :| 0 <= j < |entries| && entries[j].key == k && Expired(entries[j].value, cutoff, parse);
        assert entries[j] in entries;
        assert k in RangeKeys(db, NamespaceLow(storePrefix), NamespaceHigh(storePrefix));
      }
    }
    r := BatchDelete(db, batch);
  }

  /** A second sweep with the same cutoff deletes nothing. */
  lemma SweepIdempotent(db: Store, prefix: string, cutoff: int, parse: string -> Option<int>)
    ensures Sweep(Sweep(db, prefix, cutoff, parse), prefix, cutoff, parse) == Sweep(db, prefix, cutoff, parse)
  {
  }

  /** Nothing the sweep keeps is expired within the namespace, and the sweep
      only ever removes keys. */
  lemma SweepLeavesNoExpired(db: Store, prefix: string, cutoff: int, parse: string -> Option<int>)
    ensures var r := Sweep(db, prefix, cutoff, parse);
      r.Keys <= db.Keys &&
      forall k | k in r && InNamespace(k, prefix) :: !Expired(r[k], cutoff, parse)
  {
  }

  /** Sweeping `localpins` leaves every pin key as it was. */
  lemma LocalSweepKeepsPins(db: Store, cutoff: int, parse: string -> Option<int>, mapid: string)
    ensures var r := Sweep(db, LOCAL_PINS, cutoff, parse);
      (RecordKey(mapid) in r <==> RecordKey(mapid) in db) &&
      (RecordKey(mapid) in r ==> r[RecordKey(mapid)] == db[RecordKey(mapid)])
  {
    RecordKeyOutsideLocalPins(mapid);
  }

  /** A sweep keeps the namespace keyed by id (it only removes keys). */
  lemma SweepKeepsKeyedByMapid(db: Store, prefix: string, cutoff: int, parse: string -> Option<int>)
    requires KeyedByMapid(db)
    ensures KeyedByMapid(Sweep(db, prefix, cutoff, parse))
  {
  }

  /** An identity has no timestamp, so the identity slot survives every sweep. */
  lemma SweepKeepsClientSlot(db: Store, prefix: string, cutoff: int, parse: string -> Option<int>)
    requires ClientSlotTyped(db)
    ensures CLIENT_KEY in db ==>
      CLIENT_KEY in Sweep(db, prefix, cutoff, parse) &&
      Sweep(db, prefix, cutoff, parse)[CLIENT_KEY] == db[CLIENT_KEY]
    ensures ClientSlotTyped(Sweep(db, prefix, cutoff, parse))
  {
  }

  /** A pin whose timestamp parses to a time within the last fourteen days, or
      does not parse at all, is kept; a pin fifteen days old is deleted. */
  lemma RetentionBoundary(db: Store, now: int, parse: string -> Option<int>, rec: Record)
    requires RecordKey(rec.mapid) in db && db[RecordKey(rec.mapid)] == RecordValue(rec)
    requires |rec.mapid| > 0 && rec.mapid[0] < '~'
    ensures parse(rec.timestamp) == None ==>
      RecordKey(rec.mapid) in Sweep(db, LOCATION_PINS, Cutoff(now), parse)
    ensures parse(rec.timestamp).Some? && parse(rec.timestamp).value >= now - RETENTION_MS ==>
      RecordKey(rec.mapid) in Sweep(db, LOCATION_PINS, Cutoff(now), parse)
    ensures parse(rec.timestamp) == Some(now - 15 * 24 * 60 * 60 * 1000) ==>
      RecordKey(rec.mapid) !in Sweep(db, LOCATION_PINS, Cutoff(now), parse)
  {
    RecordKeyInNamespace(rec.mapid);
  }

  /** A blank pin created at clock reading `t`, whose ISO date parses back to
      `t`, survives every sweep run within fourteen days of `t`. */
  lemma FreshRecordSurvivesSweep(db: Store, uuid: string, iso: string, t: int, now: int, parse: string -> Option<int>)
    requires parse(iso) == Some(t) && now - RETENTION_MS <= t
    requires var rec := CreateEmptyRecord(uuid, iso);
      RecordKey(uuid) in db && db[RecordKey(uuid)] == RecordValue(rec)
    ensures RecordKey(uuid) in Sweep(db, LOCATION_PINS, Cutoff(now), parse)
  {
  }
}

=== FILE: startup.dfy ===
/** Startup: sweep both pin namespaces, fetch or create the identity, and
    hydrate the cache from every pin of the `locationpins` namespace. The
    hydrated cache is not trimmed. */
module Startup {
  import opened Options
  import opened Keys
  import opened Records
  import opened Store
  import opened Identity
  import opened Retention
  import opened Sync

  /** `loadRecords`: the values of the `locationpins` namespace, in key order. */
  method LoadRecords(db: Store) returns (records: seq<Record>)
    requires PinsAreRecords(db)
    ensures |records| == |RangeKeys(db, NamespaceLow(LOCATION_PINS), NamespaceHigh(LOCATION_PINS))|
    ensures forall r :: r in records <==>
      exists k | k in db && InNamespace(k, LOCATION_PINS) :: db[k] == RecordValue(r)
    ensures KeyedByMapid(db) ==>
      forall i, j | 0 <= i < j < |records| :: Below(records[i].mapid, records[j].mapid)
    ensures KeyedByMapid(db) ==> UniqueIds(records)
    ensures KeyedByMapid(db) ==> Consistent(Node(records, db))
  {
    var entries := Scan(db, NamespaceLow(LOCATION_PINS), NamespaceHigh(LOCATION_PINS));
    records := [];
    var i := 0;
    while i < |entries|
      invariant 0 <= i <= |entries| && |records| == i
      invariant forall j | 0 <= j < i :: entries[j].value == RecordValue(records[j])
    {
      assert entries[i] in entries;
      assert entries[i].key in RangeKeys(db, NamespaceLow(LOCATION_PINS), NamespaceHigh(LOCATION_PINS));
      records := records + [entries[i].value.rec];
      i := i + 1;
    }
    AscendingKeyCount(entries);
    LoadedMembers(db, entries, records);
    if KeyedByMapid(db) {
      LoadedOrder(db, entries, records);
    }
  }

  /** The pins scanned out of the namespace are exactly its values. */
  lemma LoadedMembers(db: Store, entries: seq<Entry>, records: seq<Record>)
    requires KeySet(entries) == RangeKeys(db, NamespaceLow(LOCATION_PINS), NamespaceHigh(LOCATION_PINS))
    requires EntriesOf(db, entries)
    requires |records| == |entries|
    requires forall j | 0 <= j < |entries| :: entries[j].value == RecordValue(records[j])
    ensures forall r :: r in records <==>
      exists k | k in db && InNamespace(k, LOCATION_PINS) :: db[k] == RecordValue(r)
  {
    forall r ensures r in records <==>
      exists k | k in db && InNamespace(k, LOCATION_PINS) :: db[k] == RecordValue(r)
    {
      if r in records {
        var j :| 0 <= j < |records| && records[j] == r;
        assert entries[j] in entries;
        var k := entries[j].key;
        assert k in RangeKeys(db, NamespaceLow(LOCATION_PINS), NamespaceHigh(LOCATION_PINS));
      }
      if exists k | k in db && InNamespace(k, LOCATION_PINS) :: db[k] == RecordValue(r) {
        var k :| k in db && InNamespace(k, LOCATION_PINS) && db[k] == RecordValue(r);
        assert k in RangeKeys(db, NamespaceLow(LOCATION_PINS), NamespaceHigh(LOCATION_PINS));
        var e :| e in entries && e.key == k;
        var j :| 0 <= j < |entries| && entries[j] == e;
        assert records[j] == r;
      }
    }
  }

  /** In a namespace keyed by id, key order is id order, so the hydrated
      cache is sorted by id, repeats no id, and matches the store. */
  lemma LoadedOrder(db: Store, entries: seq<Entry>, records: seq<Record>)
    requires KeyedByMapid(db)
    requires Ascending(entries)
    requires KeySet(entries) == RangeKeys(db, NamespaceLow(LOCATION_PINS), NamespaceHigh(LOCATION_PINS))
    requires EntriesOf(db, entries)
    requires |records| == |entries|
    requires forall j | 0 <= j < |entries| :: entries[j].value == RecordValue(records[j])
    ensures forall i, j | 0 <= i < j < |records| :: Below(records[i].mapid, records[j].mapid)
    ensures UniqueIds(records)
    ensures Consistent(Node(records, db))
  {
    forall j | 0 <= j < |records|
      ensures RecordKey(records[j].mapid) == entries[j].key
      ensures entries[j].key in db && db[entries[j].key] == RecordValue(records[j])
    {
      assert entries[j] in entries;
      assert entries[j].key in RangeKeys(db, NamespaceLow(LOCATION_PINS), NamespaceHigh(LOCATION_PINS));
    }
    forall i, j | 0 <= i < j < |records|
      ensures Below(records[i].mapid, records[j].mapid)
    {
      RecordKeyOrder(records[i].mapid, records[j].mapid);
    }
    forall i, j | 0 <= i < j < |records|
      ensures records[i].mapid != records[j].mapid
    {
      BelowIrreflexive(records[i].mapid);
    }
  }

  /** What startup leaves behind: the node the handlers start from and the
      identity. */
  datatype Booted = Booted(node: Node, client: Client)

  /** The startup sequence of `main`: sweep `locationpins` at clock reading `now1`, sweep `localpins` at
      `now2`, fetch or create the identity, load the cache. */
  method Boot(db: Store, now1: int, now2: int, parse: string -> Option<int>,
              freshUsername: string, hash: string -> string)
    returns (booted: Booted)
    requires ClientSlotTyped(db) && KeyedByMapid(db)
    ensures booted.node.db == FetchClientData(
      Sweep(Sweep(db, LOCATION_PINS, Cutoff(now1), parse), LOCAL_PINS, Cutoff(now2), parse),
      freshUsername, hash).db
    ensures |booted.node.cache| == |RangeKeys(booted.node.db, NamespaceLow(LOCATION_PINS), NamespaceHigh(LOCATION_PINS))|
    ensures forall r :: r in booted.node.cache <==>
      exists k | k in booted.node.db && InNamespace(k, LOCATION_PINS) :: booted.node.db[k] == RecordValue(r)
    ensures forall i, j | 0 <= i < j < |booted.node.cache| ::
      Below(booted.node.cache[i].mapid, booted.node.cache[j].mapid)
    ensures Consistent(booted.node)
    ensures KeyedByMapid(booted.node.db)
    ensures forall r | r in booted.node.cache :: !Expired(RecordValue(r), Cutoff(now1), parse)
    ensures forall r | r in booted.node.cache :: RecordKey(r.mapid) in db && db[RecordKey(r.mapid)] == RecordValue(r)
    ensures CLIENT_KEY in db ==> ClientValue(booted.client) == db[CLIENT_KEY]
    ensures CLIENT_KEY !in db ==> booted.client == NewClient(freshUsername, hash)
    ensures CLIENT_KEY in booted.node.db && booted.node.db[CLIENT_KEY] == ClientValue(booted.client)
  {
    var db1 := DeleteOldRecords(db, LOCATION_PINS, now1, parse);
    var db2 := DeleteOldRecords(db1, LOCAL_PINS, now2, parse);
    SweepKeepsKeyedByMapid(db, LOCATION_PINS, Cutoff(now1), parse);
    SweepKeepsKeyedByMapid(db1, LOCAL_PINS, Cutoff(now2), parse);
    SweepKeepsClientSlot(db, LOCATION_PINS, Cutoff(now1), parse);
    SweepKeepsClientSlot(db1, LOCAL_PINS, Cutoff(now2), parse);
    var fetched := FetchClientData(db2, freshUsername, hash);
    FetchKeepsPins(db2, freshUsername, hash);
    var records := LoadRecords(fetched.db);
    booted := Booted(Node(records, fetched.db), fetched.client);
    forall r | r in records
      ensures !Expired(RecordValue(r), Cutoff(now1), parse)
      ensures RecordKey(r.mapid) in db && db[RecordKey(r.mapid)] == RecordValue(r)
    {
      var k :| k in fetched.db && InNamespace(k, LOCATION_PINS) && fetched.db[k] == RecordValue(r);
      ClientKeyOutsideNamespaces();
      RecordKeyOutsideLocalPins(r.mapid);
      assert k in db1 && db1[k] == RecordValue(r);
    }
  }
}

=== FILE: store.dfy ===
/** The key-value store as the server uses it: a map from keys to values,
    read by ordered range scans, written by single puts and by an atomic
    batch of deletes. */
module Store {
  import opened Keys
  import opened Records

  type Store = map<string, Value>

  /** One key-value pair produced by a scan. */
  datatype Entry = Entry(key: string, value: Value)

  function KeySet(es: seq<Entry>): set<string> {
    set e | e in es :: e.key
  }

  /** Entries in strictly increasing key order (so no key repeats). */
  predicate Ascending(es: seq<Entry>) {
    forall i, j | 0 <= i < j < |es| :: Below(es[i].key, es[j].key)
  }

  /** Every entry is a pair the store holds. */
  predicate EntriesOf(db: Store, es: seq<Entry>) {
    forall e | e in es :: e.key in db && db[e.key] == e.value
  }

  function RangeKeys(db: Store, lo: string, hi: string): set<string> {
    set k | k in db && InRange(k, lo, hi)
  }

  /** An entry below every key of ascending entries can lead them. */
  lemma AscendingCons(x: Entry, es: seq<Entry>)
    requires Ascending(es)
    requires forall y | y in es :: Below(x.key, y.key)
    ensures Ascending([x] + es)
  {
    forall i, j | 0 <= i < j < |[x] + es|
      ensures Below(([x] + es)[i].key, ([x] + es)[j].key)
    {
      if i > 0 {
        assert ([x] + es)[i] == es[i - 1];
      }
      assert ([x] + es)[j] == es[j - 1] && es[j - 1] in es;
    }
  }

  /** Places `e` among ascending entries at the position its key sorts to. */
  function InsertEntry(es: seq<Entry>, e: Entry): (r: seq<Entry>)
    requires Ascending(es) && e.key !in KeySet(es)
    ensures Ascending(r)
    ensures forall x :: x in r <==> x in es || x == e
    ensures KeySet(r) == KeySet(es) + {e.key}
    decreases |es|
  {
    if |es| == 0 then [e]
    else if Below(e.key, es[0].key) then
      assert forall y | y in es :: Below(e.key, y.key) by {
        forall y | y in es ensures Below(e.key, y.key) {
          var m :| 0 <= m < |es| && es[m] == y;
          if m > 0 {
            BelowTransitive(e.key, es[0].key, y.key);
          }
        }
      }
      AscendingCons(e, es);
      [e] + es
    else
      assert es[0].key != e.key;
      BelowTotal(es[0].key, e.key);
      var tail := es[1..];
      assert es == [es[0]] + tail;
      var rest := InsertEntry(tail, e);
      assert forall y | y in rest :: Below(es[0].key, y.key) by {
        forall y | y in rest ensures Below(es[0].key, y.key) {
          if y != e {
            var m :| 0 <= m < |tail| && tail[m] == y;
            assert es[m + 1] == y;
          }
        }
      }
      AscendingCons(es[0], rest);
      [es[0]] + rest
  }

  lemma KeySetCons(es: seq<Entry>)
    requires |es| > 0
    ensures KeySet(es) == {es[0].key} + KeySet(es[1..])
  {
    var tail := es[1..];
    forall k | k in KeySet(es) ensures k in {es[0].key} + KeySet(tail) {
      var e :| e in es && e.key == k;
      var m :| 0 <= m < |es| && es[m] == e;
      if m > 0 {
        assert tail[m - 1] == e;
      }
    }
    forall k | k in KeySet(tail) ensures k in KeySet(es) {
      var e :| e in tail && e.key == k;
      assert e in es;
    }
    assert es[0] in es;
  }

  lemma AscendingTail(es: seq<Entry>)
    requires Ascending(es) && |es| > 0
    ensures Ascending(es[1..])
  {
    var tail := es[1..];
    forall i, j | 0 <= i < j < |tail| ensures Below(tail[i].key, tail[j].key) {
      assert tail[i] == es[i + 1] && tail[j] == es[j + 1];
    }
  }

  lemma AscendingHeadNotInTail(es: seq<Entry>)
    requires Ascending(es) && |es| > 0
    ensures es[0].key !in KeySet(es[1..])
  {
    var tail := es[1..];
    forall e | e in tail ensures e.key != es[0].key {
      var m :| 0 <= m < |tail| && tail[m] == e;
      assert es[m + 1] == e;
      BelowIrreflexive(e.key);
    }
  }

  /** Ascending entries carry as many distinct keys as they have entries. */
  lemma {:induction false} AscendingKeyCount(es: seq<Entry>)
    requires Ascending(es)
    ensures |KeySet(es)| == |es|
    decreases |es|
  {
    if |es| > 0 {
      AscendingTail(es);
      AscendingKeyCount(es[1..]);
      KeySetCons(es);
      AscendingHeadNotInTail(es);
    }
  }

  /** The store's range iteration `iterator({gt: lo, lt: hi})`: every pair whose
      key lies strictly between `lo` and `hi`, in increasing key order. The
      store's keys are visited in an arbitrary order and sorted into place. */
  method Scan(db: Store, lo: string, hi: string) returns (es: seq<Entry>)
    ensures Ascending(es)
    ensures KeySet(es) == RangeKeys(db, lo, hi)
    ensures EntriesOf(db, es)
  {
    es := [];
    var todo := db.Keys;
    while todo != {}
      invariant todo <= db.Keys
      invariant Ascending(es)
      invariant EntriesOf(db, es)
      invariant KeySet(es) == RangeKeys(db, lo, hi) - todo
      decreases |todo|
    {
      var k :| k in todo;
      ghost var range := RangeKeys(db, lo, hi);
      VisitKey(range, todo, k);
      if InRange(k, lo, hi) {
        assert k in range;
        es := InsertEntry(es, Entry(k, db[k]));
      }
      todo := todo - {k};
    }
  }

  /** Visiting key `k` moves it from the keys still to visit to the keys
      already visited. */
  lemma VisitKey(range: set<string>, todo: set<string>, k: string)
    requires k in todo
    ensures k in range ==> (range - todo) + {k} == range - (todo - {k})
    ensures k !in range ==> range - todo == range - (todo - {k})
  {
  }

  /** `put(key, value)`. */
  function Put(db: Store, key: string, v: Value): (r: Store)
    ensures r.Keys == db.Keys + {key}
    ensures r[key] == v
    ensures forall k | k in db && k != key :: r[k] == db[k]
  {
    db[key := v]
  }

  /** `storeRecord`: persists a pin under `"locationpins:" + mapid`. */
  function StoreRecord(db: Store, rec: Record): (r: Store)
    ensures r.Keys == db.Keys + {RecordKey(rec.mapid)}
    ensures r[RecordKey(rec.mapid)] == RecordValue(rec)
    ensures forall k | k in db && k != RecordKey(rec.mapid) :: r[k] == db[k]
  {
    Put(db, RecordKey(rec.mapid), RecordValue(rec))
  }

  /** The keys `StoreAll` writes. */
  function RecordKeys(rs: seq<Record>): set<string> {
    set i | 0 <= i < |rs| :: RecordKey(rs[i].mapid)
  }

  /** `storeRecord` applied to each record of `rs` in turn. */
  function StoreAll(db: Store, rs: seq<Record>): (r: Store)
    ensures r.Keys == db.Keys + RecordKeys(rs)
    ensures forall k | k in db && k !in RecordKeys(rs) :: r[k] == db[k]
    decreases |rs|
  {
    if |rs| == 0 then db
    else
      var tail := rs[1..];
      assert RecordKeys(rs) == {RecordKey(rs[0].mapid)} + RecordKeys(tail) by {
        RecordKeysCons(rs);
      }
      StoreAll(StoreRecord(db, rs[0]), tail)
  }

  lemma StoreAllCons(db: Store, rs: seq<Record>)
    requires |rs| > 0
    ensures StoreAll(db, rs) == StoreAll(StoreRecord(db, rs[0]), rs[1..])
  {
  }

  lemma RecordKeysCons(rs: seq<Record>)
    requires |rs| > 0
    ensures RecordKeys(rs) == {RecordKey(rs[0].mapid)} + RecordKeys(rs[1..])
  {
    var tail := rs[1..];
    forall k | k in RecordKeys(rs) ensures k in {RecordKey(rs[0].mapid)} + RecordKeys(tail) {
      var i :| 0 <= i < |rs| && RecordKey(rs[i].mapid) == k;
      if i > 0 { assert RecordKey(tail[i - 1].mapid) == k; }
    }
    forall k | k in RecordKeys(tail) ensures k in RecordKeys(rs) {
      var i :| 0 <= i < |tail| && RecordKey(tail[i].mapid) == k;
      assert RecordKey(rs[i + 1].mapid) == k;
    }
    assert RecordKey(rs[0].mapid) in RecordKeys(rs);
  }

  /** After `StoreAll`, the key of each record of `rs` holds a record of `rs`
      with that id; `StoreAllWritesLast` says which one. */
  lemma {:induction false} StoreAllWritesSomeRecord(db: Store, rs: seq<Record>, i: nat)
    requires i < |rs|
    ensures RecordKey(rs[i].mapid) in StoreAll(db, rs)
    ensures var v := StoreAll(db, rs)[RecordKey(rs[i].mapid)];
      v.RecordValue? && v.rec in rs && v.rec.mapid == rs[i].mapid
    decreases |rs|
  {
    var tail := rs[1..];
    var db1 := StoreRecord(db, rs[0]);
    assert StoreAll(db, rs) == StoreAll(db1, tail);
    var k := RecordKey(rs[i].mapid);
    if i > 0 || k in RecordKeys(tail) {
      var m: nat;
      if i > 0 {
        m := i - 1;
        assert tail[m] == rs[i];
      } else {
        m :| m < |tail| && RecordKey(tail[m].mapid) == k;
        RecordKeyInjective(tail[m].mapid, rs[0].mapid);
      }
      StoreAllWritesSomeRecord(db1, tail, m);
      TailMember(rs, StoreAll(db1, tail)[k].rec);
    }
  }

  lemma TailMember(rs: seq<Record>, x: Record)
    requires |rs| > 0 && x in rs[1..]
    ensures x in rs
  {
    var p :| 0 <= p < |rs| - 1 && rs[1..][p] == x;
    assert rs[p + 1] == x;
  }

  /** Last write wins: a record of `rs` whose id no later record repeats is
      what its key holds after `StoreAll`. */
  lemma {:induction false} StoreAllWritesLast(db: Store, rs: seq<Record>, i: nat)
    requires i < |rs|
    requires forall j | i < j < |rs| :: rs[j].mapid != rs[i].mapid
    ensures StoreAll(db, rs)[RecordKey(rs[i].mapid)] == RecordValue(rs[i])
    decreases |rs|
  {
    var tail := rs[1..];
    var db1 := StoreRecord(db, rs[0]);
    assert StoreAll(db, rs) == StoreAll(db1, tail);
    var k := RecordKey(rs[i].mapid);
    if i > 0 {
      assert tail[i - 1] == rs[i];
      forall j | i - 1 < j < |tail| ensures tail[j].mapid != tail[i - 1].mapid {
        assert tail[j] == rs[j + 1];
      }
      StoreAllWritesLast(db1, tail, i - 1);
    } else {
      assert k !in RecordKeys(tail) by {
        forall m | 0 <= m < |tail| ensures RecordKey(tail[m].mapid) != k {
          assert tail[m] == rs[m + 1];
          RecordKeyInjective(tail[m].mapid, rs[0].mapid);
        }
      }
    }
  }

  /** When the ids of `rs` are distinct, every record of `rs` is stored as is. */
  lemma StoreAllWritesEach(db: Store, rs: seq<Record>, i: nat)
    requires UniqueIds(rs) && i < |rs|
    ensures StoreAll(db, rs)[RecordKey(rs[i].mapid)] == RecordValue(rs[i])
  {
    StoreAllWritesLast(db, rs, i);
  }

  /** `batch.del(k)` for each key of `keys`, then one atomic `batch.write()`. */
  function BatchDelete(db: Store, keys: seq<string>): (r: Store)
    ensures forall k :: k in r <==> k in db && k !in keys
    ensures forall k | k in r :: r[k] == db[k]
  {
    map k | k in db && k !in keys :: db[k]
  }

  /** Every key of the `locationpins` namespace holds a pin. */
  predicate PinsAreRecords(db: Store) {
    forall k | k in db && InNamespace(k, LOCATION_PINS) :: db[k].RecordValue?
  }

  /** Every key of the `locationpins` namespace holds a pin and is that pin's
      own key; `storeRecord` is the only writer of the namespace. */
  predicate KeyedByMapid(db: Store) {
    forall k | k in db && InNamespace(k, LOCATION_PINS) ::
      db[k].RecordValue? && k == RecordKey(db[k].rec.mapid)
  }

  /** The identity slot, when present, holds an identity. */
  predicate ClientSlotTyped(db: Store) {
    CLIENT_KEY in db ==> db[CLIENT_KEY].ClientValue?
  }

  /** Writing a pin keeps the namespace keyed by id. */
  lemma StoreRecordKeepsKeyedByMapid(db: Store, rec: Record)
    requires KeyedByMapid(db)
    ensures KeyedByMapid(StoreRecord(db, rec))
  {
  }

  lemma StoreAllKeepsKeyedByMapid(db: Store, rs: seq<Record>)
    requires KeyedByMapid(db)
    ensures KeyedByMapid(StoreAll(db, rs))
  {
    var r := StoreAll(db, rs);
    forall k | k in r && InNamespace(k, LOCATION_PINS)
      ensures r[k].RecordValue? && k == RecordKey(r[k].rec.mapid)
    {
      if k in RecordKeys(rs) {
        var i :| 0 <= i < |rs| && RecordKey(rs[i].mapid) == k;
        StoreAllWritesSomeRecord(db, rs, i);
      }
    }
  }

  /** Writing pins never disturbs the identity slot. */
  lemma StoreAllKeepsClientSlot(db: Store, rs: seq<Record>)
    ensures CLIENT_KEY in StoreAll(db, rs) <==> CLIENT_KEY in db
    ensures CLIENT_KEY in db ==> StoreAll(db, rs)[CLIENT_KEY] == db[CLIENT_KEY]
  {
  }
}

=== FILE: sync.dfy ===
/** The room handlers as one state machine. A node is the in-memory cache and
    the store; each event is handled to completion (the cache step, then the
    store writes) before the next. Outgoing messages are returned. */
module Sync {
  import opened Options
  import opened Keys
  import opened Records
  import opened Store
  import opened Cache

  type PeerId = string

  datatype Node = Node(cache: seq<Record>, db: Store)

  /** The two actions of the room: "record" carries one pin, "cache" a list. */
  datatype Payload = RecordPayload(rec: Record) | CachePayload(records: seq<Record>)

  /** An outgoing message; `to == None` is a send without a target peer,
      which goes to every peer in the room. */
  datatype Send = Send(payload: Payload, to: Option<PeerId>)

  datatype Event =
    | PeerJoined(peer: PeerId)
    | PeerLeft(peer: PeerId)
    | RecordReceived(rec: Record, from: PeerId)
    | CacheReceived(records: seq<Record>, from: PeerId)

  datatype Outcome = Outcome(node: Node, sent: seq<Send>)

  /** The "record" handler: a pin whose id is cached is ignored; otherwise it
      is appended (dropping the front entry if that takes the cache over the
      bound) and persisted under its key. */
  function OnRecord(n: Node, rec: Record): (r: Node)
    ensures Contains(n.cache, rec.mapid) ==> r == n
    ensures !Contains(n.cache, rec.mapid) ==>
      && r.cache == InsertOne(n.cache, rec)
      && r.db.Keys == n.db.Keys + {RecordKey(rec.mapid)}
      && r.db[RecordKey(rec.mapid)] == RecordValue(rec)
      && (forall k | k in n.db && k != RecordKey(rec.mapid) :: r.db[k] == n.db[k])
    ensures |r.cache| <= Max(|n.cache|, MAX_CACHE_SIZE)
    ensures |n.cache| <= MAX_CACHE_SIZE ==> |r.cache| <= MAX_CACHE_SIZE
  {
    if Contains(n.cache, rec.mapid) then n
    else Node(InsertOne(n.cache, rec), StoreRecord(n.db, rec))
  }

  /** The "cache" handler: the records whose id the cache lacks are appended,
      the cache is trimmed to the newest MAX_CACHE_SIZE, and each of those
      records is persisted, including any trimmed straight back out. */
  function OnCache(n: Node, records: seq<Record>): (r: Node)
    ensures r.cache == MergeBatch(n.cache, records)
    ensures |r.cache| <= MAX_CACHE_SIZE
    ensures r.db.Keys == n.db.Keys + RecordKeys(Fresh(n.cache, records))
    ensures forall x | x in records && Contains(n.cache, x.mapid) ::
      (RecordKey(x.mapid) in r.db <==> RecordKey(x.mapid) in n.db) &&
      (RecordKey(x.mapid) in n.db ==> r.db[RecordKey(x.mapid)] == n.db[RecordKey(x.mapid)])
    ensures forall k | k in n.db && k !in RecordKeys(Fresh(n.cache, records)) :: r.db[k] == n.db[k]
  {
    var newRecords := Fresh(n.cache, records);
    var r := Node(MergeBatch(n.cache, records), StoreAll(n.db, newRecords));
    assert forall x | x in records && Contains(n.cache, x.mapid) :: RecordKey(x.mapid) !in RecordKeys(newRecords) by {
      forall x, i | x in records && Contains(n.cache, x.mapid) && 0 <= i < |newRecords|
        ensures RecordKey(newRecords[i].mapid) != RecordKey(x.mapid)
      {
        assert newRecords[i] in newRecords;
        RecordKeyInjective(newRecords[i].mapid, x.mapid);
      }
    }
    r
  }

  /** The peer-join handler: the whole cache, in cache order, as one
      "cache" message. */
  function OnPeerJoin(n: Node, peer: PeerId): (sent: seq<Send>)
    ensures |sent| == 1 && sent[0].payload == CachePayload(n.cache)
    ensures sent[0].to == None
  {
    [Send(CachePayload(n.cache), None)]
  }

  /** One event handled to completion. */
  function Step(n: Node, e: Event): (r: Outcome)
    ensures e.PeerJoined? ==> r.node == n && r.sent == OnPeerJoin(n, e.peer)
    ensures !e.PeerJoined? ==> r.sent == []
    ensures e.PeerLeft? ==> r.node == n
    ensures e.RecordReceived? ==> r.node == OnRecord(n, e.rec)
    ensures e.CacheReceived? ==> r.node == OnCache(n, e.records)
  {
    match e
    case PeerJoined(peer) => Outcome(n, OnPeerJoin(n, peer))
    case PeerLeft(_) => Outcome(n, [])
    case RecordReceived(rec, _) => Outcome(OnRecord(n, rec), [])
    case CacheReceived(records, _) => Outcome(OnCache(n, records), [])
  }

  /** Delivering the same "record" message twice is delivering it once. */
  lemma RecordIdempotent(n: Node, rec: Record)
    ensures OnRecord(OnRecord(n, rec), rec) == OnRecord(n, rec)
  {
    if !Contains(n.cache, rec.mapid) {
      var r := OnRecord(n, rec);
      assert r.cache[|r.cache| - 1].mapid == rec.mapid;
    }
  }

  /** The same, as events: the second delivery changes nothing and sends
      nothing. */
  lemma RecordEventIdempotent(n: Node, rec: Record, p: PeerId, q: PeerId)
    ensures var once := Step(n, RecordReceived(rec, p));
      Step(once.node, RecordReceived(rec, q)) == Outcome(once.node, [])
  {
    RecordIdempotent(n, rec);
  }

  /** Every cached pin is persisted under its key. */
  predicate CachePersisted(n: Node) {
    forall i | 0 <= i < |n.cache| :: RecordKey(n.cache[i].mapid) in n.db
  }

  /** The cache has no repeated id and the store holds exactly each cached pin
      under its key. */
  predicate Consistent(n: Node) {
    && UniqueIds(n.cache)
    && forall i | 0 <= i < |n.cache| ::
         RecordKey(n.cache[i].mapid) in n.db && n.db[RecordKey(n.cache[i].mapid)] == RecordValue(n.cache[i])
  }

  lemma OnRecordKeepsCachePersisted(n: Node, rec: Record)
    requires CachePersisted(n)
    ensures CachePersisted(OnRecord(n, rec))
  {
    var r := OnRecord(n, rec);
    if !Contains(n.cache, rec.mapid) {
      var c := n.cache + [rec];
      forall i | 0 <= i < |r.cache| ensures RecordKey(r.cache[i].mapid) in r.db {
        var j := |c| - |r.cache| + i;
        assert r.cache[i] == c[j];
        if j < |n.cache| {
          assert RecordKey(n.cache[j].mapid) in n.db;
        }
      }
    }
  }

  lemma OnCacheKeepsCachePersisted(n: Node, records: seq<Record>)
    requires CachePersisted(n)
    ensures CachePersisted(OnCache(n, records))
  {
    var r := OnCache(n, records);
    var newRecords := Fresh(n.cache, records);
    var all := n.cache + newRecords;
    forall i | 0 <= i < |r.cache| ensures RecordKey(r.cache[i].mapid) in r.db {
      var j := |all| - |r.cache| + i;
      assert r.cache[i] == all[j];
      if j >= |n.cache| {
        assert all[j] == newRecords[j - |n.cache|];
        assert RecordKey(all[j].mapid) in RecordKeys(newRecords);
      } else {
        assert RecordKey(n.cache[j].mapid) in n.db;
      }
    }
  }

  /** Every handler keeps every cached pin persisted. */
  lemma StepKeepsCachePersisted(n: Node, e: Event)
    requires CachePersisted(n)
    ensures CachePersisted(Step(n, e).node)
  {
    match e
    case RecordReceived(rec, _) => OnRecordKeepsCachePersisted(n, rec);
    case CacheReceived(records, _) => OnCacheKeepsCachePersisted(n, records);
    case _ =>
  }

  lemma OnRecordKeepsConsistent(n: Node, rec: Record)
    requires Consistent(n)
    ensures Consistent(OnRecord(n, rec))
  {
    var r := OnRecord(n, rec);
    if !Contains(n.cache, rec.mapid) {
      InsertOneKeepsUniqueIds(n.cache, rec);
      var c := n.cache + [rec];
      forall i | 0 <= i < |r.cache|
        ensures RecordKey(r.cache[i].mapid) in r.db
        ensures r.db[RecordKey(r.cache[i].mapid)] == RecordValue(r.cache[i])
      {
        var j := |c| - |r.cache| + i;
        assert r.cache[i] == c[j];
        if j < |n.cache| {
          RecordKeyInjective(n.cache[j].mapid, rec.mapid);
          assert n.cache[j].mapid != rec.mapid;
        }
      }
    }
  }

  lemma OnCacheKeepsConsistent(n: Node, records: seq<Record>)
    requires Consistent(n) && UniqueIds(records)
    ensures Consistent(OnCache(n, records))
  {
    var r := OnCache(n, records);
    assert r == Node(MergeBatch(n.cache, records), StoreAll(n.db, Fresh(n.cache, records)));
    MergeKeepsUniqueIds(n.cache, records);
    forall i | 0 <= i < |r.cache|
      ensures RecordKey(r.cache[i].mapid) in r.db
      ensures r.db[RecordKey(r.cache[i].mapid)] == RecordValue(r.cache[i])
    {
      MergedRecordStored(n, records, i);
    }
  }

  /** The pin at position `i` of the merged cache is stored under its key. */
  lemma MergedRecordStored(n: Node, records: seq<Record>, i: nat)
    requires Consistent(n) && UniqueIds(records)
    requires i < |MergeBatch(n.cache, records)|
    ensures var c := MergeBatch(n.cache, records);
      var db := StoreAll(n.db, Fresh(n.cache, records));
      RecordKey(c[i].mapid) in db && db[RecordKey(c[i].mapid)] == RecordValue(c[i])
  {
    if |n.cache| + |Fresh(n.cache, records)| - |MergeBatch(n.cache, records)| + i >= |n.cache| {
      MergedNewStored(n, records, i);
    } else {
      MergedCachedStored(n, records, i);
    }
  }

  /** A merged position past the old cache holds a newly cached record. */
  lemma MergedNewStored(n: Node, records: seq<Record>, i: nat)
    requires UniqueIds(records)
    requires i < |MergeBatch(n.cache, records)|
    requires |n.cache| + |Fresh(n.cache, records)| - |MergeBatch(n.cache, records)| + i >= |n.cache|
    ensures var c := MergeBatch(n.cache, records);
      var db := StoreAll(n.db, Fresh(n.cache, records));
      RecordKey(c[i].mapid) in db && db[RecordKey(c[i].mapid)] == RecordValue(c[i])
  {
    var c := MergeBatch(n.cache, records);
    var newRecords := Fresh(n.cache, records);
    var j := |n.cache| + |newRecords| - |c| + i;
    assert c[i] == newRecords[j - |n.cache|] by {
      assert c[i] == (n.cache + newRecords)[j];
    }
    NewRecordStored(n.db, n.cache, records, j - |n.cache|);
  }

  /** A merged position within the old cache holds a pin that was cached. */
  lemma MergedCachedStored(n: Node, records: seq<Record>, i: nat)
    requires Consistent(n)
    requires i < |MergeBatch(n.cache, records)|
    requires |n.cache| + |Fresh(n.cache, records)| - |MergeBatch(n.cache, records)| + i < |n.cache|
    ensures var c := MergeBatch(n.cache, records);
      var db := StoreAll(n.db, Fresh(n.cache, records));
      RecordKey(c[i].mapid) in db && db[RecordKey(c[i].mapid)] == RecordValue(c[i])
  {
    var c := MergeBatch(n.cache, records);
    var newRecords := Fresh(n.cache, records);
    var j := |n.cache| + |newRecords| - |c| + i;
    assert c[i] == n.cache[j] by {
      assert c[i] == (n.cache + newRecords)[j];
    }
    CachedRecordStored(n, records, j);
  }

  /** A record the batch newly caches is stored as is. */
  lemma NewRecordStored(db: Store, cache: seq<Record>, records: seq<Record>, m: nat)
    requires UniqueIds(records) && m < |Fresh(cache, records)|
    ensures var newRecords := Fresh(cache, records);
      var r := StoreAll(db, newRecords);
      RecordKey(newRecords[m].mapid) in r && r[RecordKey(newRecords[m].mapid)] == RecordValue(newRecords[m])
  {
    FreshKeepsUniqueIds(cache, records);
    StoreAllWritesEach(db, Fresh(cache, records), m);
  }

  /** A cached pin stays stored as it was through the batch's writes. */
  lemma CachedRecordStored(n: Node, records: seq<Record>, j: nat)
    requires Consistent(n) && j < |n.cache|
    ensures var db := StoreAll(n.db, Fresh(n.cache, records));
      RecordKey(n.cache[j].mapid) in db && db[RecordKey(n.cache[j].mapid)] == RecordValue(n.cache[j])
  {
    CachedKeyNotRewritten(n.cache, records, j);
  }

  /** A cached pin's key is not among the keys a batch writes. */
  lemma CachedKeyNotRewritten(cache: seq<Record>, records: seq<Record>, j: nat)
    requires j < |cache|
    ensures RecordKey(cache[j].mapid) !in RecordKeys(Fresh(cache, records))
  {
    var newRecords := Fresh(cache, records);
    var k := RecordKey(cache[j].mapid);
    forall m | 0 <= m < |newRecords| ensures RecordKey(newRecords[m].mapid) != k {
      assert newRecords[m] in newRecords;
      assert !Contains(cache, newRecords[m].mapid);
      RecordKeyInjective(newRecords[m].mapid, cache[j].mapid);
    }
  }

  /** Every handler keeps the store consistent with the cache, provided a
      "cache" message repeats no id; see `Cache.DuplicateInBatchIsKept` for a
      batch that breaks it. */
  lemma StepKeepsConsistent(n: Node, e: Event)
    requires Consistent(n)
    requires e.CacheReceived? ==> UniqueIds(e.records)
    ensures Consistent(Step(n, e).node)
  {
    match e
    case RecordReceived(rec, _) => OnRecordKeepsConsistent(n, rec);
    case CacheReceived(records, _) => OnCacheKeepsConsistent(n, records);
    case _ =>
  }

  /** Every handler keeps the pin namespace keyed by id. */
  lemma StepKeepsKeyedByMapid(n: Node, e: Event)
    requires KeyedByMapid(n.db)
    ensures KeyedByMapid(Step(n, e).node.db)
  {
    match e
    case RecordReceived(rec, _) =>
      StoreRecordKeepsKeyedByMapid(n.db, rec);
    case CacheReceived(records, _) =>
      StoreAllKeepsKeyedByMapid(n.db, Fresh(n.cache, records));
    case _ =>
  }

  /** Every handler leaves the identity slot as it was. */
  lemma StepKeepsClientSlot(n: Node, e: Event)
    requires ClientSlotTyped(n.db)
    ensures CLIENT_KEY in Step(n, e).node.db <==> CLIENT_KEY in n.db
    ensures CLIENT_KEY in n.db ==> Step(n, e).node.db[CLIENT_KEY] == n.db[CLIENT_KEY]
    ensures ClientSlotTyped(Step(n, e).node.db)
  {
    match e
    case RecordReceived(rec, _) =>
      assert RecordKey(rec.mapid)[..|LOCATION_PINS|] == LOCATION_PINS;
    case CacheReceived(records, _) =>
      StoreAllKeepsClientSlot(n.db, Fresh(n.cache, records));
    case _ =>
  }

  /** Every "cache" message persists each record it newly caches, trimmed or
      not: when the batch repeats no id, each such record is stored as is. */
  lemma CacheMessagePersistsNewRecords(n: Node, records: seq<Record>, x: Record)
    requires UniqueIds(records)
    requires x in records && !Contains(n.cache, x.mapid)
    ensures RecordKey(x.mapid) in OnCache(n, records).db
    ensures OnCache(n, records).db[RecordKey(x.mapid)] == RecordValue(x)
  {
    var newRecords := Fresh(n.cache, records);
    FreshKeepsUniqueIds(n.cache, records);
    assert x in newRecords;
    var i :| 0 <= i < |newRecords| && newRecords[i] == x;
    StoreAllWritesEach(n.db, newRecords, i);
  }

  /** A batch that repeats an id the cache lacks stores the last copy of it:
      the writes run in batch order, each overwriting the one before. */
  lemma CacheMessageStoresLastCopy(n: Node, records: seq<Record>, i: nat)
    requires i < |records| && !Contains(n.cache, records[i].mapid)
    requires forall j | i < j < |records| :: records[j].mapid != records[i].mapid
    ensures RecordKey(records[i].mapid) in OnCache(n, records).db
    ensures OnCache(n, records).db[RecordKey(records[i].mapid)] == RecordValue(records[i])
  {
    var newRecords := Fresh(n.cache, records);
    var before := Fresh(n.cache, records[..i]);
    var after := Fresh(n.cache, records[i + 1..]);
    FreshSplitAt(n.cache, records, i);
    LaterIdsDiffer(n.cache, records, i);
    var p := |before|;
    forall j | p < j < |newRecords| ensures newRecords[j].mapid != newRecords[p].mapid {
      assert newRecords[j] == after[j - p - 1];
    }
    StoreAllWritesLast(n.db, newRecords, p);
  }

  /** The filtered batch around a record the cache lacks. */
  lemma FreshSplitAt(cache: seq<Record>, records: seq<Record>, i: nat)
    requires i < |records| && !Contains(cache, records[i].mapid)
    ensures Fresh(cache, records) ==
      Fresh(cache, records[..i]) + [records[i]] + Fresh(cache, records[i + 1..])
  {
    var x := records[i];
    assert records == records[..i] + ([x] + records[i + 1..]);
    FreshAppend(cache, records[..i], [x] + records[i + 1..]);
    FreshAppend(cache, [x], records[i + 1..]);
    FreshSingle(cache, x);
  }

  /** No record the filter keeps after position `i` repeats the id there. */
  lemma LaterIdsDiffer(cache: seq<Record>, records: seq<Record>, i: nat)
    requires i < |records|
    requires forall j | i < j < |records| :: records[j].mapid != records[i].mapid
    ensures forall y | y in Fresh(cache, records[i + 1..]) :: y.mapid != records[i].mapid
  {
    forall y | y in Fresh(cache, records[i + 1..]) ensures y.mapid != records[i].mapid {
      var m :| 0 <= m < |records[i + 1..]| && records[i + 1..][m] == y;
      assert records[i + 1 + m] == y;
    }
  }

  /** A peer whose cache is empty takes a sender's join snapshot over: the
      newest MAX_CACHE_SIZE pins in the sender's order, which is the whole
      cache unless startup left it above the bound. */
  lemma SnapshotReplicates(sender: Node, joiner: Node, p: PeerId, q: PeerId)
    requires joiner.cache == []
    ensures var sent := Step(sender, PeerJoined(p)).sent;
      |sent| == 1 && sent[0].payload.CachePayload? &&
      Step(joiner, CacheReceived(sent[0].payload.records, q)).node.cache == KeepNewest(sender.cache, MAX_CACHE_SIZE)
    ensures var sent := Step(sender, PeerJoined(p)).sent;
      |sender.cache| <= MAX_CACHE_SIZE ==>
        Step(joiner, CacheReceived(sent[0].payload.records, q)).node.cache == sender.cache
  {
    FreshAllNew([], sender.cache);
    assert [] + sender.cache == sender.cache;
  }

  /** "record" messages delivered one after another. */
  function DeliverAll(n: Node, rs: seq<Record>): Node
    decreases |rs|
  {
    if |rs| == 0 then n else DeliverAll(OnRecord(n, rs[0]), rs[1..])
  }

  /** No record of `rs` has an id the cache holds. */
  lemma UniqueIdsSplit(cache: seq<Record>, rs: seq<Record>)
    requires UniqueIds(cache + rs)
    ensures forall x | x in rs :: !Contains(cache, x.mapid)
  {
    forall x, i | x in rs && 0 <= i < |cache| ensures cache[i].mapid != x.mapid {
      var j :| 0 <= j < |rs| && rs[j] == x;
      assert (cache + rs)[i] == cache[i] && (cache + rs)[|cache| + j] == x;
    }
  }

  /** On a cache within the bound, records with ids new to it and to each
      other, delivered one "record" message at a time, leave the newest
      MAX_CACHE_SIZE of the old cache followed by the records, and every
      record stored. */
  lemma {:induction false} OneByOneKeepsNewest(n: Node, rs: seq<Record>)
    requires |n.cache| <= MAX_CACHE_SIZE
    requires UniqueIds(n.cache + rs)
    ensures DeliverAll(n, rs) == Node(KeepNewest(n.cache + rs, MAX_CACHE_SIZE), StoreAll(n.db, rs))
    decreases |rs|
  {
    if |rs| == 0 {
      assert n.cache + rs == n.cache;
    } else {
      OneByOneStep(n, rs);
      OneByOneKeepsNewest(OnRecord(n, rs[0]), rs[1..]);
      OneByOneGlue(n, rs);
    }
  }

  /** The induction step: the run from the second record on, started on the
      node the first record leaves, gives what the whole run promises. */
  lemma OneByOneGlue(n: Node, rs: seq<Record>)
    requires |rs| > 0
    requires var n1 := OnRecord(n, rs[0]);
      && n1 == Node(KeepNewest(n.cache + [rs[0]], MAX_CACHE_SIZE), StoreRecord(n.db, rs[0]))
      && DeliverAll(n1, rs[1..]) == Node(KeepNewest(n1.cache + rs[1..], MAX_CACHE_SIZE), StoreAll(n1.db, rs[1..]))
    ensures DeliverAll(n, rs) == Node(KeepNewest(n.cache + rs, MAX_CACHE_SIZE), StoreAll(n.db, rs))
  {
    var tail := rs[1..];
    var first := n.cache + [rs[0]];
    var n1 := OnRecord(n, rs[0]);
    DeliverAllCons(n, rs);
    StoreAllCons(n.db, rs);
    AppendHead(n.cache, rs);
    assert KeepNewest(n1.cache + tail, MAX_CACHE_SIZE) == KeepNewest(n.cache + rs, MAX_CACHE_SIZE) by {
      KeepNewestTwice(first, tail, MAX_CACHE_SIZE);
    }
  }

  lemma DeliverAllCons(n: Node, rs: seq<Record>)
    requires |rs| > 0
    ensures DeliverAll(n, rs) == DeliverAll(OnRecord(n, rs[0]), rs[1..])
  {
  }

  /** The first delivery of a run: the record is new to the cache, so it is
      appended and stored, and the rest of the run stays new. */
  lemma OneByOneStep(n: Node, rs: seq<Record>)
    requires |n.cache| <= MAX_CACHE_SIZE
    requires UniqueIds(n.cache + rs) && |rs| > 0
    ensures var n1 := OnRecord(n, rs[0]);
      && n1 == Node(KeepNewest(n.cache + [rs[0]], MAX_CACHE_SIZE), StoreRecord(n.db, rs[0]))
      && |n1.cache| <= MAX_CACHE_SIZE
      && UniqueIds(n1.cache + rs[1..])
  {
    UniqueIdsSplit(n.cache, rs);
    var r0 := rs[0];
    var tail := rs[1..];
    assert r0 in rs;
    var n1 := OnRecord(n, r0);
    assert n1.cache == InsertOne(n.cache, r0);
    AppendHead(n.cache, rs);
    var k := |n.cache + [r0]| - |n1.cache|;
    assert n1.cache + tail == (n.cache + rs)[k..];
    UniqueIdsSuffix(n.cache + rs, k);
  }

  /** Under the same conditions, one-by-one delivery and one "cache" message
      give the same node. */
  lemma OneByOneEqualsBatch(n: Node, rs: seq<Record>)
    requires |n.cache| <= MAX_CACHE_SIZE
    requires UniqueIds(n.cache + rs)
    ensures DeliverAll(n, rs) == OnCache(n, rs)
  {
    UniqueIdsSplit(n.cache, rs);
    FreshAllNew(n.cache, rs);
    OneByOneKeepsNewest(n, rs);
  }

  /** Once the cache is full, one-by-one delivery and a batch part ways: a
      record that the first delivery evicts is accepted again by the next
      "record" message, while the batch filter still sees it as cached. */
  lemma EvictedRecordReaccepted(n: Node, x: Record)
    requires |n.cache| == MAX_CACHE_SIZE && UniqueIds(n.cache)
    requires !Contains(n.cache, x.mapid)
    ensures var old0 := n.cache[0];
      && OnCache(n, [x, old0]).cache == n.cache[1..] + [x]
      && DeliverAll(n, [x, old0]).cache == n.cache[2..] + [x, old0]
      && DeliverAll(n, [x, old0]).cache != OnCache(n, [x, old0]).cache
  {
    var old0 := n.cache[0];
    BatchKeepsEvicted(n, x);
    OneByOneReaccepts(n, x);
    var c := n.cache[2..] + [x, old0];
    assert c[|c| - 1] == old0;
    assert (n.cache[1..] + [x])[|c| - 1] == x;
    assert x.mapid != old0.mapid;
  }

  /** The batch step on [x, front] appends x and drops the front pin. */
  lemma BatchKeepsEvicted(n: Node, x: Record)
    requires |n.cache| == MAX_CACHE_SIZE
    requires !Contains(n.cache, x.mapid)
    ensures OnCache(n, [x, n.cache[0]]).cache == n.cache[1..] + [x]
  {
    var old0 := n.cache[0];
    assert Contains(n.cache, old0.mapid) by { assert n.cache[0].mapid == old0.mapid; }
    assert [x, old0] == [x] + [old0];
    FreshAppend(n.cache, [x], [old0]);
    FreshSingle(n.cache, x);
    FreshSingle(n.cache, old0);
    assert Fresh(n.cache, [x, old0]) == [x];
  }

  /** One at a time, x evicts the front pin, which the next message then
      brings back, evicting the next one. */
  lemma OneByOneReaccepts(n: Node, x: Record)
    requires |n.cache| == MAX_CACHE_SIZE && UniqueIds(n.cache)
    requires !Contains(n.cache, x.mapid)
    ensures DeliverAll(n, [x, n.cache[0]]).cache == n.cache[2..] + [x, n.cache[0]]
  {
    var old0 := n.cache[0];
    var n1 := OnRecord(n, x);
    assert n1.cache == n.cache[1..] + [x];
    assert !Contains(n1.cache, old0.mapid) by {
      forall i | 0 <= i < |n1.cache| ensures n1.cache[i].mapid != old0.mapid {
        if i < |n1.cache| - 1 {
          assert n1.cache[i] == n.cache[i + 1];
        }
      }
    }
    assert [x, old0][1..] == [old0];
    assert DeliverAll(n, [x, old0]) == DeliverAll(n1, [old0]);
    var n2 := OnRecord(n1, old0);
    assert DeliverAll(n1, [old0]) == DeliverAll(n2, []);
    assert n2.cache == (n.cache[1..] + [x] + [old0])[1..];
  }

  /** Delivering records with distinct ids one at a time to an empty cache
      leaves the newest MAX_CACHE_SIZE of them (all of them when fewer), the
      first ones delivered having been evicted. */
  lemma CacheBoundScenario(n: Node, rs: seq<Record>)
    requires n.cache == [] && UniqueIds(rs)
    ensures DeliverAll(n, rs).cache == KeepNewest(rs, MAX_CACHE_SIZE)
  {
    assert n.cache + rs == rs;
    OneByOneKeepsNewest(n, rs);
  }

  /** The example run: a "record" message with id "a" on an empty node caches
      ["a"] and writes key "locationpins:a"; the same message again changes
      nothing. */
  lemma RecordScenario(rec: Record, p: PeerId)
    requires rec.mapid == "a"
    ensures var once := Step(Node([], map[]), RecordReceived(rec, p)).node;
      && once.cache == [rec]
      && once.db.Keys == {"locationpins:a"}
      && Step(once, RecordReceived(rec, p)).node == once
  {
    var empty := Node([], map[]);
    var once := Step(empty, RecordReceived(rec, p)).node;
    assert once == OnRecord(empty, rec);
    RecordOnEmpty(rec);
    assert once.db.Keys == {"locationpins:a"} by {
      assert RecordKey(rec.mapid) == "locationpins:a";
    }
    assert Step(once, RecordReceived(rec, p)).node == once by {
      RecordIdempotent(empty, rec);
    }
  }

  /** The first record on an empty node is the whole cache and the whole
      store. */
  lemma RecordOnEmpty(rec: Record)
    ensures OnRecord(Node([], map[]), rec) == Node([rec], map[RecordKey(rec.mapid) := RecordValue(rec)])
  {
    assert !Contains([], rec.mapid);
  }
}
